=== FILE: README.md ===
# PostgreSQL migration driver, modelled in Dafny

This project models the core of a PostgreSQL driver for a schema-migration tool
(`postgres.go`). The driver applies one versioned migration file at a time. It records
each applied version as a row of the version table `public.schema_migrations`. It reports
progress and errors on a result channel.

The model has three parts:

- **Directive parser** (`Directives`, over `Text`): `fileOptions` reads the first line of
  a migration file. When that line starts with `"-- "`, the rest of the line is split on
  single spaces. `txDisabled` asks whether one of the resulting options is
  `disable_ddl_transaction`.
- **Migration protocol** (`Migration`): `Migrate` is a pure function. Its inputs are the
  file, the committed database and the answers the database and the file loader give to
  each step: begin, marker write, content read, statement batch, rollback and commit.
  Its result holds:
  - every value sent on the result channel, in order;
  - the committed database (the applied versions, and the statement batches whose effects
    are durable);
  - any transaction left neither committed nor rolled back.

  A failed statement batch becomes an error value. `Report` picks its located or brief
  form by parsing the server's `Position` with a model of `strconv.Atoi` (`Decimal`).
- **Version-table bootstrap** (`Bootstrap`): `ensureVersionTableExists` chooses between
  three actions: create the table, keep it, or alter its column to `bigint`. The choice
  is made over the catalog rows that its two `information_schema` queries read.

`VersionStore` states what `Version` and `Versions` return over the table's rows.

Shared pieces: `Wrappers.Option` and `Sql` (an opaque `DbError` and a success/failure
`Outcome`).

Behaviours of the code a reader might not expect, which the model keeps:

- Options are a list, not a set. Duplicates and empty tokens are kept: `"-- "` alone
  yields one empty option.
- A direction that is neither Up nor Down writes no version marker. This is `Direction.Neither`.
- A `Position` that is missing, unparsable or negative gives the brief error form. It is
  not an "unknown" location.
- When the content read fails after the marker write, the transaction is left open. It is
  neither committed nor rolled back (`dangling`).
- After a successful Up migration, the version is the current one when it is above every
  applied version (`UpMakesCurrentVersion`); `Migrate` does not check the order of versions.

## Model

| member | source | states |
|---|---|---|
| Text.FirstLine | postgres.go:192 | the result is a prefix of the content with no newline, and it is followed by a newline or ends the content |
| Text.FirstLineOf | postgres.go:192 | a newline-free line is the first line of itself and of itself followed by a newline and anything else |
| Text.Split | postgres.go:197 | there is at least one piece; no piece holds the separator; every character of a piece comes from the input; joining the pieces with the separator gives the input back |
| Text.SplitJoin | postgres.go:197 | splitting a join of separator-free pieces gives back exactly those pieces, the other half of the round trip |
| Directives.FileOptions | postgres.go:189-198 | the options are empty exactly when the first line lacks the `"-- "` prefix; with the prefix they are never empty and join with spaces to the first line minus its three-character prefix; no option holds a space or newline |
| Directives.TxDisabled | postgres.go:200-207 | true exactly when some option equals `disable_ddl_transaction` |
| Directives.LaterLinesIgnored | postgres.go:191-195 | text after the first newline, including a directive line, does not change the options |
| Directives.DirectiveLineRoundTrip | postgres.go:196-197 | a directive line built from space- and newline-free tokens is read back as exactly those tokens, whatever follows |
| Directives.PrefixExamples | postgres.go:193-197 | `"-- "` alone yields one empty option; `"--a"` yields none |
| Directives.DisableDirectiveExample | postgres.go:191-207 | a file opening with `-- disable_ddl_transaction` has that single option and runs outside the transaction |
| Directives.TwoOptionsExample | postgres.go:191-207 | `-- foo bar` yields `foo`, `bar`, which does not disable the transaction |
| Directives.NoPrefixNoOptions | postgres.go:192-195 | a first line without the exact prefix yields no options even when a directive line follows |
| Decimal.ParseInt | postgres.go:127 | an accepted position lies in the 64-bit range and is an optional sign followed by digits only; the empty string is rejected |
| Decimal.ParseIntAccepts | postgres.go:127 | every digit string whose value fits in 64 bits is accepted with its value, bare, after `+` or after `-`, leading zeros included |
| Decimal.ParseIntRejects | postgres.go:127 | a lone `+` or `-` is rejected; a digit string above the 64-bit maximum is rejected bare and after `+`, and after `-` unless it is exactly the magnitude of the 64-bit minimum, which reads as that minimum |
| Decimal.FormatInt | postgres.go:127 | every 64-bit integer in the decimal form the server sends a position in parses back to itself, so the parser accepts every such position |
| Migration.Report | postgres.go:125-134 | the error keeps severity, code and message; it is located exactly when `Position` parses to an integer of at least 0, and then carries that integer minus one |
| Migration.ReportedPositions | postgres.go:127-133 | a position rendered from p >= 0 gives offset p - 1; an empty or negative position gives the brief form |
| Migration.Commit | postgres.go:142 | after the commit an inserted version is present and a deleted one absent; every other version is present exactly when it was before; the durable batches are extended by exactly the transaction's batches |
| Migration.RollBack | postgres.go:97-102 | the committed database is unchanged; the errors already sent are kept as a prefix; one more error follows exactly when the rollback fails, and it is the rollback error; the transaction is left dangling exactly when the rollback fails |
| Migration.Migrate | postgres.go:86-146 | the file is sent first and everything after it is an error (at most two); no error is sent exactly when every step succeeds; on success Up adds the version, Down removes it, nothing else changes and the statements are applied; after any error the committed versions equal those before the call |
| Migration.MarkerFailureRollsBack | postgres.go:96-111 | a failed marker write is sent after the file, followed by the rollback error if any; nothing is committed; the transaction is closed, or left dangling when the rollback fails; read, exec and commit answers are never consulted |
| Migration.StatementFailureRollsBack | postgres.go:125-139 | a failed batch is reported after the file, followed by the rollback error if any; nothing is committed whether the batch ran in the transaction or on the raw handle; the transaction is closed, or left dangling when the rollback fails; no commit is attempted |
| Migration.EarlyExitsSkipRollback | postgres.go:90-117 | when begin or the content read fails, exactly one error follows the file, nothing is committed, and the rollback and commit answers do not matter; a failed begin leaves no transaction open |
| Migration.ReadFailureLeavesTransactionOpen | postgres.go:114-117 | a failed content read leaves the transaction holding the marker edit open |
| Migration.TransactionalAllOrNothing | postgres.go:119-145 | for a file that keeps its transaction, marker edit and statements are committed together or the committed database is unchanged |
| Migration.RawStatementsOutliveFailedCommit | postgres.go:119-145 | for a file that disables the transaction, a failed commit keeps the statements' effects but not the marker edit |
| Migration.CommitFailureReported | postgres.go:142-145 | for any file, a commit failing after every earlier step succeeded is sent after the file as the only error; no transaction is left open, no rollback answer is consulted, and the versions are those before the call |
| Migration.UpThenDownRestoresVersions | postgres.go:96-112 | a successful Up then Down of a version not yet applied gives back the starting version set |
| Migration.UpMakesCurrentVersion | postgres.go:148-157 | after a successful Up of a version above every applied one, that version is the one `Version` reports |
| VersionStore.Version | postgres.go:148-157 | the result is the greatest applied version, or 0 when the table is empty |
| VersionStore.Versions | postgres.go:159-181 | the result is strictly descending and holds exactly the applied versions, each once |
| Bootstrap.Count | postgres.go:56 | the count is 0 exactly when no catalog row matches the lookup |
| Bootstrap.FirstType | postgres.go:67-70 | there is no column type (`sql.ErrNoRows`) exactly when the count is 0; otherwise it is the column type of the first matching row |
| Bootstrap.CreateIfNotExists | postgres.go:61 | the existing rows are kept as a prefix; at most one row is added, exactly when the version table is missing, and it is the version table with a `bigint` column |
| Bootstrap.Widen | postgres.go:76 | only the version table's column type changes, to `bigint`; no table is renamed or moved |
| Bootstrap.RunDdl | postgres.go:60-77 | the action is reported; it succeeds exactly when the server accepts the statement and, for an ALTER, the table exists; a failure leaves the catalog unchanged; an accepted ALTER, or a CREATE on a catalog without the table, leaves the table with a `bigint` column; an accepted CREATE on a catalog that has the table changes nothing; no existing row is removed, and each one either stays as it was or is the version table with its column now `bigint` |
| Bootstrap.EnsureWith | postgres.go:53-78 | for any lookup: a failed count query is returned first, a failed column-type query is returned with no action, a refused CREATE or ALTER is returned as the error of that action, a CREATE succeeds exactly when the server accepts it and an ALTER exactly when it accepts it and the table exists, and any failure leaves the catalog unchanged; once the queries are answered, a count of 0 gives create, a first matching `bigint` column gives keep with no error and no change, and any other type gives alter, and each action occurs only in its case; a successful CREATE on a catalog that has the table changes nothing, and no call removes a row or changes anything but the version table's column type, to `bigint` |
| Bootstrap.EnsureVersionTableAsWritten | postgres.go:53-78 | when no table is literally named `public.schema_migrations`, the decision is always to create, and a catalog that already has the version table is left exactly as it was, whatever its column type |
| Bootstrap.EnsureVersionTable | postgres.go:53-78 | a failed count query is returned with no change; any failure leaves the catalog unchanged |
| Bootstrap.EnsureLeavesTableReady | postgres.go:53-78 | after any successful call the version table exists with a `bigint` column |
| Bootstrap.DecisionByState | postgres.go:60-77 | with both queries answered: no table gives create, a `bigint` column gives keep with no change, any other type gives alter |
| Bootstrap.SecondCallIsNoOp | postgres.go:53-78 | after a successful call, a second call whose queries succeed returns no error, sends no DDL and changes nothing |
| Bootstrap.AsWrittenMissesVersionTable | postgres.go:56 | as written, an existing version table with an `integer` column gets a CREATE TABLE IF NOT EXISTS and stays `integer`; the intended lookup alters it to `bigint` |

## Left out

- Opening, pinging, closing and replacing the connection (`Initialize`, `SetDB`, `Close`) is I/O. So are `Execute`, `FilenameExtension` and the `init` registration under two URL schemes. `Initialize` ends by calling `ensureVersionTableExists`, which is modelled.
- SQL text and its execution are not modelled. Each step's success or failure is an input of `Migrate` and of the bootstrap. In particular, the model does not derive from the version set that inserting an applied version fails on the primary key.
- The model applies a statement batch as a whole or not at all. It does not model partial effects of a failing batch run on the raw handle.
- A failed commit is taken to commit nothing. A failed rollback leaves the transaction dangling.
- `file.LineColumnFromOffset` and `file.LinesBeforeAndAfter` belong to a package that is not part of this model. A located error records the offset that would be passed to them: the position minus one.
- The `fmt.Errorf` text is not modelled. Error values are datatypes that carry the formatted fields.
- The type assertion `err.(*pq.Error)` panics on any other error type. The model assumes every failed batch reports a pq error.
- The result channel, its goroutine and `defer close` are not modelled. `Run.events` is the sequence received before the channel closes.
- The content is lazily loaded. The model gives it with the file, and the loader's answer says whether the read succeeded.
- Versions are unbounded integers. The model does not give the version column or `file.Version` a 64-bit width. `strconv.Atoi` is modelled for a 64-bit `int`.
- Bootstrap.EnsureWith: every catalog row is taken to have a `version` column. A matching table without one, which the column query would skip, is not modelled.
- VersionStore.Versions requires distinct rows, as the table's primary key guarantees.

## Findings

| source | as written | input that shows it | evidently intended | confidence | as-written member | corrected member |
|---|---|---|---|---|---|---|
| postgres.go:56 | the count query matches `information_schema.tables.table_name` against the schema-qualified `public.schema_migrations`, but `table_name` holds only the unqualified name; the column query at line 68 has the same filter | a database that already has `public.schema_migrations` with an `integer` version column: the count is 0, so every start sends `CREATE TABLE IF NOT EXISTS`, which is the DDL line 54 means to avoid, and the column is never widened | look the table up by `table_schema = 'public'` and `table_name = 'schema_migrations'`, so that an existing table is inspected and altered only when its column is not `bigint` | medium, not executed (relies on PostgreSQL's definition of `information_schema.tables`) | Bootstrap.AsWrittenMissesVersionTable | Bootstrap.EnsureVersionTable |

=== FILE: bootstrap.dfy ===
/** `ensureVersionTableExists` (postgres.go:53-78): make sure the version table exists with a
    `bigint` version column, sending DDL only when something has to change. The database is
    reduced to the catalog rows the two information_schema queries read. */
module Bootstrap {
  import opened Wrappers
  import opened Sql

  /** `tableName`: the schema-qualified name every statement of the driver uses. */
  const TableName: string := "public.schema_migrations"
  /** The schema and the unqualified name the server resolves `tableName` to. */
  const TableSchema: string := "public"
  const TableBase: string := "schema_migrations"
  const BigInt: string := "bigint"

  /** The error `Scan` returns when a query yields no row. */
  const ErrNoRows: DbError := DbError("sql: no rows in result set")
  /** The error the server answers an ALTER TABLE of a missing table with. */
  const UndefinedTable: DbError := DbError("pq: relation \"public.schema_migrations\" does not exist")

  /** A table as information_schema describes it: `table_schema`, `table_name` (never
      schema-qualified) and the `data_type` of its `version` column. */
  datatype Relation = Relation(schema: string, name: string, versionType: string)

  /** The catalog rows, in the order the server returns them. */
  type Catalog = seq<Relation>

  /** The WHERE clause shared by the count query and the column-type query. */
  datatype Lookup = ByName(name: string) | BySchemaAndName(schema: string, name: string)

  predicate Matches(rel: Relation, key: Lookup) {
    match key
    case ByName(n) => rel.name == n
    case BySchemaAndName(s, n) => rel.schema == s && rel.name == n
  }

  /** The table that `tableName` resolves to when a statement names it. */
  predicate IsVersionTable(rel: Relation) {
    rel.schema == TableSchema && rel.name == TableBase
  }

  /** The lookup the driver uses: `table_name = 'public.schema_migrations'`. */
  const AsWrittenKey: Lookup := ByName(TableName)
  /** The lookup that finds the table `tableName` resolves to. */
  const IntendedKey: Lookup := BySchemaAndName(TableSchema, TableBase)

  /** `SELECT count(*) ... WHERE <key>`. */
  function Count(cat: Catalog, key: Lookup): (n: nat)
    ensures n == 0 <==> forall i :: 0 <= i < |cat| ==> !Matches(cat[i], key)
    ensures n <= |cat|
  {
    if |cat| == 0 then 0
    else (if Matches(cat[0], key) then 1 else 0) + Count(cat[1..], key)
  }

  /** The position of the first row matching `key`, or `|cat|` when none does. */
  function FirstMatch(cat: Catalog, key: Lookup): (i: nat)
    ensures i <= |cat|
    ensures i < |cat| ==> Matches(cat[i], key)
    ensures forall j :: 0 <= j < i ==> !Matches(cat[j], key)
  {
    if |cat| == 0 then 0
    else if Matches(cat[0], key) then 0
    else 1 + FirstMatch(cat[1..], key)
  }

  /** `QueryRow(SELECT data_type ... WHERE <key>).Scan`: the type of the first matching row, or
      None (`sql.ErrNoRows`) when no row matches. */
  function FirstType(cat: Catalog, key: Lookup): (t: Option<string>)
    ensures t.None? <==> Count(cat, key) == 0
    ensures t.Some? ==> exists i :: 0 <= i < |cat| && Matches(cat[i], key)
                                   && cat[i].versionType == t.value
                                   && forall j :: 0 <= j < i ==> !Matches(cat[j], key)
  {
    var i := FirstMatch(cat, key);
    if i < |cat| then
      assert Matches(cat[i], key) && forall j :: 0 <= j < i ==> !Matches(cat[j], key);
      Some(cat[i].versionType)
    else None
  }

  /** The three ways the driver can settle the version table. */
  datatype Action = CreateTable | KeepTable | AlterToBigint

  /** The answers to the count query, the column-type query and the DDL statement. */
  datatype BootResponses = BootResponses(countQuery: Outcome, typeQuery: Outcome, ddl: Outcome)

  /** What one call returns, the action it settled on (None when a query failed first), and the
      catalog afterwards. */
  datatype Boot = Boot(outcome: Outcome, action: Option<Action>, catalog: Catalog)

  /** `CREATE TABLE IF NOT EXISTS public.schema_migrations (version bigint not null primary key)`. */
  function CreateIfNotExists(cat: Catalog): (c: Catalog)
    ensures cat <= c && |c| <= |cat| + 1
    ensures |c| > |cat| <==> Count(cat, IntendedKey) == 0
    ensures |c| > |cat| ==> IsVersionTable(c[|cat|]) && c[|cat|].versionType == BigInt
  {
    if Count(cat, IntendedKey) > 0 then cat else cat + [Relation(TableSchema, TableBase, BigInt)]
  }

  /** `ALTER TABLE public.schema_migrations ALTER COLUMN version TYPE bigint`, on an existing
      table: only that table's column changes. */
  function Widen(cat: Catalog): (c: Catalog)
    ensures |c| == |cat|
    ensures forall i :: 0 <= i < |cat| ==> c[i].schema == cat[i].schema && c[i].name == cat[i].name
    ensures forall i :: 0 <= i < |cat| && IsVersionTable(cat[i]) ==> c[i].versionType == BigInt
    ensures forall i :: 0 <= i < |cat| && !IsVersionTable(cat[i]) ==> c[i] == cat[i]
  {
    if |cat| == 0 then []
    else
      var head := if IsVersionTable(cat[0]) then cat[0].(versionType := BigInt) else cat[0];
      [head] + Widen(cat[1..])
  }

  /** Sends one DDL statement and applies it when the server accepts it. */
  function RunDdl(action: Action, cat: Catalog, ddl: Outcome): (b: Boot)
    requires !action.KeepTable?
    ensures b.action == Some(action)
    ensures b.outcome.Fail? ==> b.catalog == cat
    ensures b.outcome.Ok? <==> ddl.Ok? && (action.CreateTable? || Count(cat, IntendedKey) > 0)
    ensures b.outcome.Ok? && (action.AlterToBigint? || Count(cat, IntendedKey) == 0) ==>
              Ready(b.catalog)
    ensures b.outcome.Ok? && action.CreateTable? && Count(cat, IntendedKey) > 0 ==> b.catalog == cat
    ensures |cat| <= |b.catalog|
    ensures forall i :: 0 <= i < |cat| ==>
              b.catalog[i] == cat[i] || (IsVersionTable(cat[i]) && b.catalog[i] == cat[i].(versionType := BigInt))
  {
    match ddl
    case Fail(e) => Boot(Fail(e), Some(action), cat)
    case Ok =>
      if action.CreateTable? then
        if Count(cat, IntendedKey) == 0 then
          CreatedTableIsReady(cat);
          Boot(Ok, Some(action), CreateIfNotExists(cat))
        else Boot(Ok, Some(action), CreateIfNotExists(cat))
      else if Count(cat, IntendedKey) == 0 then Boot(Fail(UndefinedTable), Some(action), cat)
      else
        WidenedTableIsReady(cat);
        Boot(Ok, Some(action), Widen(cat))
  }

  /** The body of `ensureVersionTableExists` for a given lookup: a count of 0 creates the table
      without asking for the column type; otherwise a `bigint` column is kept as it is and any
      other type is altered. Every failing query or statement is returned as the error. */
  function EnsureWith(cat: Catalog, key: Lookup, r: BootResponses): (b: Boot)
    ensures r.countQuery.Fail? ==> b == Boot(r.countQuery, None, cat)
    ensures b.outcome.Fail? ==> b.catalog == cat
    ensures b.action == Some(CreateTable) ==> Count(cat, key) == 0
    ensures b.action == Some(KeepTable) ==> b.outcome.Ok? && b.catalog == cat
                                            && FirstType(cat, key) == Some(BigInt)
    ensures b.action == Some(AlterToBigint) ==> FirstType(cat, key).Some?
                                                && FirstType(cat, key) != Some(BigInt)
    ensures r.countQuery.Ok? && Count(cat, key) == 0 ==> b.action == Some(CreateTable)
    ensures (r.countQuery.Ok? && r.typeQuery.Ok? && Count(cat, key) > 0
             && FirstType(cat, key) == Some(BigInt)) ==> b == Boot(Ok, Some(KeepTable), cat)
    ensures (r.countQuery.Ok? && r.typeQuery.Ok? && Count(cat, key) > 0
             && FirstType(cat, key) != Some(BigInt)) ==> b.action == Some(AlterToBigint)
    ensures (r.countQuery.Ok? && Count(cat, key) > 0 && r.typeQuery.Fail?) ==>
              b == Boot(r.typeQuery, None, cat)
    ensures (r.countQuery.Ok? && Count(cat, key) == 0) ==>
              (b.outcome.Ok? <==> r.ddl.Ok?)
    ensures (r.countQuery.Ok? && Count(cat, key) == 0 && r.ddl.Fail?) ==>
              b == Boot(r.ddl, Some(CreateTable), cat)
    ensures (r.countQuery.Ok? && r.typeQuery.Ok? && Count(cat, key) > 0
             && FirstType(cat, key) != Some(BigInt)) ==>
              (b.outcome.Ok? <==> r.ddl.Ok? && Count(cat, IntendedKey) > 0)
    ensures (r.countQuery.Ok? && r.typeQuery.Ok? && Count(cat, key) > 0
             && FirstType(cat, key) != Some(BigInt) && r.ddl.Fail?) ==>
              b == Boot(r.ddl, Some(AlterToBigint), cat)
    ensures b.outcome.Ok? && b.action == Some(CreateTable) && Count(cat, IntendedKey) > 0 ==>
              b.catalog == cat
    ensures |cat| <= |b.catalog|
    ensures forall i :: 0 <= i < |cat| ==>
              b.catalog[i] == cat[i] || (IsVersionTable(cat[i]) && b.catalog[i] == cat[i].(versionType := BigInt))
  {
    match r.countQuery
    case Fail(e) => Boot(Fail(e), None, cat)
    case Ok =>
      if Count(cat, key) <= 0 then RunDdl(CreateTable, cat, r.ddl)
      else
        match r.typeQuery
        case Fail(e) => Boot(Fail(e), None, cat)
        case Ok =>
          match FirstType(cat, key)
          // Unreachable here: every catalog row has a version column, so a positive count
          // always finds a type. The driver reaches `sql.ErrNoRows` only for a matching
          // table without that column.
          case None => Boot(Fail(ErrNoRows), None, cat)
          case Some(t) =>
            if t == BigInt then Boot(Ok, Some(KeepTable), cat)
            else RunDdl(AlterToBigint, cat, r.ddl)
  }

  /** `ensureVersionTableExists` as written: both queries filter on
      `table_name = 'public.schema_migrations'`. Unless some table is literally named that, the
      driver always sends CREATE TABLE IF NOT EXISTS, so an existing version table is never
      changed, whatever its column type. */
  function EnsureVersionTableAsWritten(cat: Catalog, r: BootResponses): (b: Boot)
    ensures r.countQuery.Ok? && (forall i :: 0 <= i < |cat| ==> cat[i].name != TableName)
            ==> b.action == Some(CreateTable)
    ensures (r.countQuery.Ok? && (forall i :: 0 <= i < |cat| ==> cat[i].name != TableName)
             && Count(cat, IntendedKey) > 0) ==> b.catalog == cat
  {
    EnsureWith(cat, AsWrittenKey, r)
  }

  /** `ensureVersionTableExists` with the lookup that finds the table the driver uses:
      `table_schema = 'public' AND table_name = 'schema_migrations'`. */
  function EnsureVersionTable(cat: Catalog, r: BootResponses): (b: Boot)
    ensures r.countQuery.Fail? ==> b == Boot(r.countQuery, None, cat)
    ensures b.outcome.Fail? ==> b.catalog == cat
  {
    EnsureWith(cat, IntendedKey, r)
  }

  /** The version table exists and its `version` column is a `bigint`. */
  predicate Ready(cat: Catalog) {
    Count(cat, IntendedKey) > 0 && FirstType(cat, IntendedKey) == Some(BigInt)
  }

  /** A row added at the end is counted when it matches. */
  lemma {:induction false} CountAppend(cat: Catalog, rel: Relation, key: Lookup)
    ensures Count(cat + [rel], key) == Count(cat, key) + (if Matches(rel, key) then 1 else 0)
  {
    if |cat| > 0 {
      assert (cat + [rel])[1..] == cat[1..] + [rel];
      CountAppend(cat[1..], rel, key);
    }
  }

  /** Widening a column changes no table's schema or name, so every lookup counts the same. */
  lemma {:induction false} WidenKeepsCount(cat: Catalog, key: Lookup)
    ensures Count(Widen(cat), key) == Count(cat, key)
  {
    if |cat| > 0 {
      assert Widen(cat)[1..] == Widen(cat[1..]);
      WidenKeepsCount(cat[1..], key);
    }
  }

  /** After CREATE TABLE IF NOT EXISTS on a catalog without the table, the table is found with a
      bigint column. */
  lemma CreatedTableIsReady(cat: Catalog)
    requires Count(cat, IntendedKey) == 0
    ensures Ready(CreateIfNotExists(cat))
  {
    var rel := Relation(TableSchema, TableBase, BigInt);
    var c := cat + [rel];
    CountAppend(cat, rel, IntendedKey);
    assert Matches(c[|cat|], IntendedKey);
    assert FirstMatch(c, IntendedKey) == |cat|;
  }

  /** After the ALTER on a catalog that has the table, the table is found with a bigint column. */
  lemma WidenedTableIsReady(cat: Catalog)
    requires Count(cat, IntendedKey) > 0
    ensures Ready(Widen(cat))
  {
    WidenKeepsCount(cat, IntendedKey);
    var c := Widen(cat);
    var i := FirstMatch(c, IntendedKey);
    assert i < |c|;
    assert IsVersionTable(cat[i]);
  }

  /** Whatever the catalog, a call that succeeds leaves the version table in place with a
      bigint column. */
  lemma EnsureLeavesTableReady(cat: Catalog, r: BootResponses)
    ensures EnsureVersionTable(cat, r).outcome.Ok? ==> Ready(EnsureVersionTable(cat, r).catalog)
  {
    var b := EnsureVersionTable(cat, r);
    if b.outcome.Ok? {
      if b.action == Some(CreateTable) {
        CreatedTableIsReady(cat);
      } else if b.action == Some(AlterToBigint) {
        WidenedTableIsReady(cat);
      }
    }
  }

  /** The decision on the state of the catalog: no table is created, a bigint column is kept,
      any other column type is altered. */
  lemma DecisionByState(cat: Catalog, r: BootResponses)
    requires r.countQuery.Ok? && r.typeQuery.Ok?
    ensures Count(cat, IntendedKey) == 0 ==> EnsureVersionTable(cat, r).action == Some(CreateTable)
    ensures Ready(cat) ==> EnsureVersionTable(cat, r) == Boot(Ok, Some(KeepTable), cat)
    ensures Count(cat, IntendedKey) > 0 && !Ready(cat) ==>
              EnsureVersionTable(cat, r).action == Some(AlterToBigint)
  {
  }

  /** Idempotence: once a call has succeeded, a second call whose queries succeed sends no DDL,
      returns no error and leaves the catalog as it is. */
  lemma SecondCallIsNoOp(cat: Catalog, r1: BootResponses, r2: BootResponses)
    requires EnsureVersionTable(cat, r1).outcome.Ok?
    requires r2.countQuery.Ok? && r2.typeQuery.Ok?
    ensures var after := EnsureVersionTable(cat, r1).catalog;
            EnsureVersionTable(after, r2) == Boot(Ok, Some(KeepTable), after)
  {
    EnsureLeavesTableReady(cat, r1);
  }

  /** As written, the count query never finds the version table itself, because `table_name`
      holds the unqualified name: an existing version table with an `integer` column is answered
      with CREATE TABLE IF NOT EXISTS, which changes nothing, so the column is never widened.
      With the intended lookup the same catalog gets the ALTER and ends with a bigint column. */
  lemma AsWrittenMissesVersionTable()
    ensures var cat := [Relation(TableSchema, TableBase, "integer")];
            var r := BootResponses(Ok, Ok, Ok);
            && EnsureVersionTableAsWritten(cat, r) == Boot(Ok, Some(CreateTable), cat)
            && !Ready(EnsureVersionTableAsWritten(cat, r).catalog)
            && EnsureVersionTable(cat, r).action == Some(AlterToBigint)
            && Ready(EnsureVersionTable(cat, r).catalog)
  {
    var cat := [Relation(TableSchema, TableBase, "integer")];
    var r := BootResponses(Ok, Ok, Ok);
    assert TableBase != TableName by {
      assert |TableBase| != |TableName|;
    }
    assert Count(cat, AsWrittenKey) == 0;
    assert Count(cat, IntendedKey) == 1;
    assert FirstType(cat, IntendedKey) == Some("integer");
    assert "integer" != BigInt by {
      assert "integer"[0] != BigInt[0];
    }
    WidenedTableIsReady(cat);
  }
}

=== FILE: decimal.dfy ===
/** Decimal integers as Go's strconv package reads and writes them, for a 64-bit `int`. */
module Decimal {
  import opened Wrappers

  const MinInt64: int := -0x8000_0000_0000_0000
  const MaxInt64: int := 0x7fff_ffff_ffff_ffff

  predicate IsDigit(c: char) {
    '0' <= c <= '9'
  }

  predicate AllDigits(s: string) {
    forall i :: 0 <= i < |s| ==> IsDigit(s[i])
  }

  function DigitValue(c: char): (d: nat)
    requires IsDigit(c)
    ensures d < 10
  {
    (c as int) - ('0' as int)
  }

  function DigitChar(d: nat): (c: char)
    requires d < 10
    ensures IsDigit(c) && DigitValue(c) == d
  {
    (('0' as int) + d) as char
  }

  /** The value of a digit string read most significant digit first; the empty string is 0. */
  function DigitsValue(s: string): nat
    requires AllDigits(s)
  {
    if |s| == 0 then 0 else 10 * DigitsValue(s[..|s| - 1]) + DigitValue(s[|s| - 1])
  }

  /** The decimal digits of `n`, most significant first, without sign or leading zeros. */
  function Digits(n: nat): (s: string)
    ensures |s| >= 1 && AllDigits(s)
    ensures DigitsValue(s) == n
  {
    if n < 10 then [DigitChar(n)]
    else
      var s := Digits(n / 10) + [DigitChar(n % 10)];
      assert s[..|s| - 1] == Digits(n / 10);
      s
  }

  /** `strconv.Atoi`: an optional '+' or '-' followed by at least one decimal digit and nothing
      else, whose value fits in 64 bits; anything else (the empty string included) is an error. */
  function ParseInt(s: string): (r: Option<int>)
    ensures r.Some? ==> MinInt64 <= r.value <= MaxInt64
    ensures r.Some? ==> |s| >= 1 && (IsDigit(s[0]) || s[0] == '+' || s[0] == '-')
    ensures r.Some? ==> AllDigits(s[1..])
  {
    var signed := |s| > 0 && (s[0] == '+' || s[0] == '-');
    var body := if signed then s[1..] else s;
    if |body| == 0 || !AllDigits(body) then None
    else
      var magnitude: int := DigitsValue(body);
      var n := if signed && s[0] == '-' then -magnitude else magnitude;
      if MinInt64 <= n <= MaxInt64 then Some(n) else None
  }

  /** The decimal form in which the server sends a character position (the `Position` field
      of a pq error): a '-' for negative numbers, then the digits of the magnitude. Every
      64-bit value written this way reads back as itself. */
  function FormatInt(n: int): (s: string)
    ensures |s| >= 1
    ensures n >= 0 <==> IsDigit(s[0])
    ensures MinInt64 <= n <= MaxInt64 ==> ParseInt(s) == Some(n)
  {
    if n < 0 then "-" + Digits(-n) else Digits(n)
  }

  /** Every digit string whose value fits in 64 bits is accepted, bare or after either sign,
      leading zeros included, and read as its value: "007" is 7, "+5" is 5, "-0" is 0. */
  lemma ParseIntAccepts(d: string)
    requires |d| >= 1 && AllDigits(d) && DigitsValue(d) <= MaxInt64
    ensures ParseInt(d) == Some(DigitsValue(d))
    ensures ParseInt("+" + d) == Some(DigitsValue(d))
    ensures ParseInt("-" + d) == Some(-(DigitsValue(d) as int))
  {
    var v := DigitsValue(d);
    assert IsDigit(d[0]);
    assert ParseInt(d) == Some(v);
    var plus := "+" + d;
    assert plus[0] == '+' && plus[1..] == d;
    assert ParseInt(plus) == Some(v);
    var minus := "-" + d;
    assert minus[0] == '-' && minus[1..] == d;
    assert ParseInt(minus) == Some(-(v as int));
  }

  /** What the parser refuses besides malformed text: a sign with no digits after it, and a
      digit string whose signed value lies outside the 64-bit range. 9223372036854775808
      is the one magnitude above MaxInt64 still accepted, after a '-', as the minimum. */
  lemma ParseIntRejects(d: string)
    requires AllDigits(d)
    ensures ParseInt("+") == None && ParseInt("-") == None
    ensures |d| >= 1 && DigitsValue(d) > MaxInt64 ==> ParseInt(d) == None && ParseInt("+" + d) == None
    ensures |d| >= 1 && DigitsValue(d) > MaxInt64 + 1 ==> ParseInt("-" + d) == None
    ensures |d| >= 1 && DigitsValue(d) == MaxInt64 + 1 ==> ParseInt("-" + d) == Some(MinInt64)
  {
  }
}

=== FILE: directives.dfy ===
/** The per-file directives read from a migration's first line (postgres.go:189-207). */
module Directives {
  import opened Text

  /** The comment that opens a directive line: dash, dash, space. */
  const CommentPrefix: string := "-- "

  /** The one directive the driver acts on: run the body outside the migration's transaction. */
  const TxDisabledOption: string := "disable_ddl_transaction"

  /** `fileOptions`: when the first line starts with "-- ", the rest of that line split on single
      spaces; otherwise no options at all. Joining the options with spaces gives back the first
      line without its prefix, and no option holds a space or a newline. */
  function FileOptions(content: string): (opts: seq<string>)
    ensures opts == [] <==> !(CommentPrefix <= FirstLine(content))
    ensures CommentPrefix <= FirstLine(content) ==>
              |opts| >= 1 && Join(opts, ' ') == FirstLine(content)[|CommentPrefix|..]
    ensures forall i :: 0 <= i < |opts| ==> ' ' !in opts[i] && '\n' !in opts[i]
  {
    var line := FirstLine(content);
    if CommentPrefix <= line then Split(line[|CommentPrefix|..], ' ') else []
  }

  /** `txDisabled`: whether one of the options is exactly "disable_ddl_transaction". */
  function TxDisabled(opts: seq<string>): (disabled: bool)
    ensures disabled <==> TxDisabledOption in opts
  {
    if |opts| == 0 then false
    else opts[0] == TxDisabledOption || TxDisabled(opts[1..])
  }

  /** Only the first line is read: whatever follows the first newline, a directive line
      included, has no effect on the options. */
  lemma LaterLinesIgnored(line: string, rest: string)
    requires '\n' !in line
    ensures FileOptions(line + "\n" + rest) == FileOptions(line)
  {
    FirstLineOf(line, rest);
  }

  /** A directive line written from tokens that hold no space or newline is read back as
      exactly those tokens, whatever follows it. */
  lemma DirectiveLineRoundTrip(tokens: seq<string>, rest: string)
    requires |tokens| >= 1
    requires forall i :: 0 <= i < |tokens| ==> ' ' !in tokens[i] && '\n' !in tokens[i]
    ensures FileOptions(CommentPrefix + Join(tokens, ' ') + "\n" + rest) == tokens
  {
    var line := CommentPrefix + Join(tokens, ' ');
    JoinAvoids(tokens, ' ', '\n');
    assert '\n' !in line;
    FirstLineOf(line, rest);
    assert line[|CommentPrefix|..] == Join(tokens, ' ');
    SplitJoin(tokens, ' ');
  }

  /** "-- " with nothing after it gives one empty option; "--" without the space gives none. */
  lemma PrefixExamples()
    ensures FileOptions("-- ") == [""]
    ensures FileOptions("--a") == []
  {
  }

  /** A file that opens with the directive line runs outside the transaction, whatever its
      statements are. */
  lemma DisableDirectiveExample(statements: string)
    ensures FileOptions(CommentPrefix + TxDisabledOption + "\n" + statements) == [TxDisabledOption]
    ensures TxDisabled(FileOptions(CommentPrefix + TxDisabledOption + "\n" + statements))
  {
    var disable := [TxDisabledOption];
    assert ' ' !in TxDisabledOption && '\n' !in TxDisabledOption;
    DirectiveLineRoundTrip(disable, statements);
    assert Join(disable, ' ') == TxDisabledOption;
  }

  /** A directive line is split on its single spaces; unknown options leave the transaction on. */
  lemma TwoOptionsExample(statements: string)
    ensures FileOptions(CommentPrefix + "foo bar" + "\n" + statements) == ["foo", "bar"]
    ensures !TxDisabled(FileOptions(CommentPrefix + "foo bar" + "\n" + statements))
  {
    var foobar := ["foo", "bar"];
    DirectiveLineRoundTrip(foobar, statements);
    assert Join(foobar, ' ') == "foo bar";
    assert foobar[0] != TxDisabledOption && foobar[1] != TxDisabledOption;
  }

  /** A first line without the exact prefix yields no options, even when a directive line
      follows it. */
  lemma NoPrefixNoOptions(first: string, rest: string)
    requires '\n' !in first
    requires !(CommentPrefix <= first)
    ensures FileOptions(first + "\n" + rest) == []
    ensures !TxDisabled(FileOptions(first + "\n" + rest))
  {
    FirstLineOf(first, rest);
  }
}

=== FILE: migration.dfy ===
/** `Driver.Migrate` (postgres.go:85-146): one migration file applied to an abstract database,
    with every call the driver makes to the database or the file loader answered by a parameter. */
module Migration {
  import opened Wrappers
  import opened Sql
  import Decimal
  import Directives
  import VersionStore

  /** `direction.Direction`. Migrate tests for Up and then for Down; any other value matches
      neither branch and writes no version marker. */
  datatype Direction = Up | Down | Neither

  /** `file.File` as Migrate sees it: the version, the direction and the content that
      `ReadContent` loads. */
  datatype MigrationFile = MigrationFile(version: int, direction: Direction, content: string)

  /** The `*pq.Error` a failed statement batch reports; `position` is the server's 1-based
      character position as text, empty when it sent none. */
  datatype PqError = PqError(severity: string, code: string, message: string, position: string)

  /** The answer to running the file's statements. */
  datatype ExecOutcome = Executed | Rejected(pq: PqError)

  /** The answers the database and the file loader give to each step Migrate may take, in
      order: `db.Begin`, the marker INSERT or DELETE, `f.ReadContent`, the statement batch,
      `tx.Rollback` and `tx.Commit`. A step that is not reached leaves its answer unused. */
  datatype Responses = Responses(
    begin: Outcome, marker: Outcome, read: Outcome,
    exec: ExecOutcome, rollback: Outcome, commit: Outcome)

  /** An error value sent on the pipe: one passed on unchanged, or the statement failure
      rewritten as a located or a brief message. `offset` is the 0-based character offset
      handed to `file.LineColumnFromOffset`, which turns it, with the content, into the line,
      the column and the five lines of context around it. */
  datatype Error =
    | Native(err: DbError)
    | Located(severity: string, code: string, message: string, offset: int)
    | Brief(severity: string, code: string, message: string)

  /** A value sent on the pipe: the file first, then errors. */
  datatype Event = Started(file: MigrationFile) | Failed(error: Error)

  /** The change a transaction makes to the version table. */
  datatype MarkerEdit = Insert(version: int) | Delete(version: int) | NoEdit

  /** A transaction's uncommitted work: its marker edit and the statement batches run in it. */
  datatype Tx = Tx(marker: MarkerEdit, batches: seq<string>)

  /** The committed database: the versions in the version table and, in order, the statement
      batches whose effects are durable. */
  datatype Store = Store(versions: set<int>, applied: seq<string>)

  /** What one call leaves behind: everything sent on the pipe before it is closed, the
      committed database, and the transaction it left neither committed nor rolled back. */
  datatype Run = Run(events: seq<Event>, store: Store, dangling: Option<Tx>)

  function MarkerFor(f: MigrationFile): MarkerEdit {
    match f.direction
    case Up => Insert(f.version)
    case Down => Delete(f.version)
    case Neither => NoEdit
  }

  /** Committing a transaction applies its marker edit and makes its batches durable. */
  function Commit(store: Store, tx: Tx): (s: Store)
    ensures tx.marker.Insert? ==> tx.marker.version in s.versions
    ensures tx.marker.Delete? ==> tx.marker.version !in s.versions
    ensures forall x :: (tx.marker.NoEdit? || x != tx.marker.version) ==>
              (x in s.versions <==> x in store.versions)
    ensures store.applied <= s.applied && s.applied[|store.applied|..] == tx.batches
  {
    var versions := match tx.marker
      case Insert(v) => store.versions + {v}
      case Delete(v) => store.versions - {v}
      case NoEdit => store.versions;
    Store(versions, store.applied + tx.batches)
  }

  /** The statement failure as sent on the pipe (postgres.go:126-134): located when `Position`
      reads as an integer that is not negative, brief otherwise. */
  function Report(pq: PqError): (e: Error)
    ensures !e.Native?
    ensures e.severity == pq.severity && e.code == pq.code && e.message == pq.message
    ensures e.Located? <==>
              Decimal.ParseInt(pq.position).Some? && Decimal.ParseInt(pq.position).value >= 0
    ensures e.Located? ==> e.offset == Decimal.ParseInt(pq.position).value - 1 && e.offset >= -1
  {
    match Decimal.ParseInt(pq.position)
    case Some(offset) =>
      if offset >= 0 then Located(pq.severity, pq.code, pq.message, offset - 1)
      else Brief(pq.severity, pq.code, pq.message)
    case None => Brief(pq.severity, pq.code, pq.message)
  }

  /** A position the server renders from a character position `p` yields the offset `p - 1`;
      a missing or negative position yields the brief form. */
  lemma ReportedPositions(pq: PqError, p: int)
    requires 0 <= p <= Decimal.MaxInt64
    ensures Report(pq.(position := Decimal.FormatInt(p)))
            == Located(pq.severity, pq.code, pq.message, p - 1)
    ensures Report(pq.(position := "")) == Brief(pq.severity, pq.code, pq.message)
    ensures Report(pq.(position := Decimal.FormatInt(-p - 1)))
            == Brief(pq.severity, pq.code, pq.message)
  {
  }

  /** Rolls the transaction back after the error already in `events`; a rollback error is sent
      after it, and the transaction is then left dangling. */
  function RollBack(events: seq<Event>, store: Store, tx: Tx, rollback: Outcome): (run: Run)
    ensures run.store == store
    ensures events <= run.events && |run.events| <= |events| + 1
    ensures |run.events| > |events| <==> rollback.Fail?
    ensures rollback.Fail? ==> run.events[|events|] == Failed(Native(rollback.err))
    ensures run.dangling.Some? <==> rollback.Fail?
    ensures run.dangling.Some? ==> run.dangling.value == tx
  {
    match rollback
    case Ok => Run(events, store, None)
    case Fail(e) => Run(events + [Failed(Native(e))], store, Some(tx))
  }

  /** Every step Migrate takes succeeds: begin, the marker write when there is one, reading the
      content, the statements and the commit. */
  predicate StepsSucceed(f: MigrationFile, r: Responses) {
    && r.begin.Ok?
    && (f.direction.Neither? || r.marker.Ok?)
    && r.read.Ok?
    && r.exec.Executed?
    && r.commit.Ok?
  }

  /** Whether the file's statements run on the raw handle instead of in the transaction. */
  predicate RunsOutsideTx(f: MigrationFile) {
    Directives.TxDisabled(Directives.FileOptions(f.content))
  }

  /** `Migrate`. The file is sent first; every later value is an error, and there are at most
      two of them. No error is sent exactly when every step succeeds, and then the marker edit
      and the statements are committed: Up adds the version, Down removes it, and no other
      version changes. When an error is sent, the committed versions are the ones before the
      call. */
  function Migrate(f: MigrationFile, store: Store, r: Responses): (run: Run)
    ensures |run.events| >= 1 && run.events[0] == Started(f)
    ensures forall i :: 1 <= i < |run.events| ==> run.events[i].Failed?
    ensures |run.events| <= 3
    ensures |run.events| == 1 <==> StepsSucceed(f, r)
    ensures |run.events| == 1 ==> run.store.applied == store.applied + [f.content]
    ensures |run.events| == 1 ==> run.dangling == None
    ensures |run.events| == 1 && f.direction.Up? ==> run.store.versions == store.versions + {f.version}
    ensures |run.events| == 1 && f.direction.Down? ==> run.store.versions == store.versions - {f.version}
    ensures |run.events| == 1 && f.direction.Neither? ==> run.store.versions == store.versions
    ensures |run.events| > 1 ==> run.store.versions == store.versions
  {
    var started := [Started(f)];
    match r.begin
    case Fail(e) => Run(started + [Failed(Native(e))], store, None)
    case Ok =>
      var edit := MarkerFor(f);
      if !edit.NoEdit? && r.marker.Fail? then
        RollBack(started + [Failed(Native(r.marker.err))], store, Tx(NoEdit, []), r.rollback)
      else
        match r.read
        case Fail(e) => Run(started + [Failed(Native(e))], store, Some(Tx(edit, [])))
        case Ok =>
          var raw := RunsOutsideTx(f);
          match r.exec
          case Rejected(pq) =>
            RollBack(started + [Failed(Report(pq))], store, Tx(edit, []), r.rollback)
          case Executed =>
            var store' := if raw then store.(applied := store.applied + [f.content]) else store;
            var tx := Tx(edit, if raw then [] else [f.content]);
            match r.commit
            case Fail(e) => Run(started + [Failed(Native(e))], store', None)
            case Ok => Run(started, Commit(store', tx), None)
  }

  /** A failed marker write is sent after the file, then the rollback error if there is one;
      nothing is committed, the transaction is closed unless its rollback failed, and the
      remaining steps are never taken. */
  lemma MarkerFailureRollsBack(f: MigrationFile, store: Store, r: Responses, later: Responses)
    requires r.begin.Ok? && !f.direction.Neither? && r.marker.Fail?
    ensures var run := Migrate(f, store, r);
      && run.store == store
      && run.events == [Started(f), Failed(Native(r.marker.err))]
                       + (if r.rollback.Fail? then [Failed(Native(r.rollback.err))] else [])
      && run.dangling == (if r.rollback.Fail? then Some(Tx(NoEdit, [])) else None)
      && run == Migrate(f, store, later.(begin := r.begin, marker := r.marker, rollback := r.rollback))
  {
  }

  /** A failed statement batch is reported after the file, then the rollback error if there is
      one. Nothing is committed, whether the batch ran in the transaction or on the raw handle,
      the transaction is closed unless its rollback failed, and the commit is never attempted. */
  lemma StatementFailureRollsBack(f: MigrationFile, store: Store, r: Responses, commit: Outcome)
    requires r.begin.Ok? && (f.direction.Neither? || r.marker.Ok?) && r.read.Ok?
    requires r.exec.Rejected?
    ensures var run := Migrate(f, store, r);
      && run.store == store
      && run.events == [Started(f), Failed(Report(r.exec.pq))]
                       + (if r.rollback.Fail? then [Failed(Native(r.rollback.err))] else [])
      && run.dangling == (if r.rollback.Fail? then Some(Tx(MarkerFor(f), [])) else None)
      && run == Migrate(f, store, r.(commit := commit))
  {
  }

  /** When begin or reading the content fails, exactly one error follows the file, nothing is
      committed, and neither a rollback nor a commit is attempted: their answers do not matter.
      A failed begin opens no transaction, so none is left behind. */
  lemma EarlyExitsSkipRollback(f: MigrationFile, store: Store, r: Responses, rollback: Outcome, commit: Outcome)
    requires r.begin.Fail? || (r.begin.Ok? && (f.direction.Neither? || r.marker.Ok?) && r.read.Fail?)
    ensures var run := Migrate(f, store, r);
      && run.store == store
      && run.events == [Started(f), Failed(Native(if r.begin.Fail? then r.begin.err else r.read.err))]
      && (r.begin.Fail? ==> run.dangling == None)
      && run == Migrate(f, store, r.(rollback := rollback, commit := commit))
  {
  }

  /** When reading the content fails, the transaction holding the marker edit is left open:
      neither committed nor rolled back. */
  lemma ReadFailureLeavesTransactionOpen(f: MigrationFile, store: Store, r: Responses)
    requires r.begin.Ok? && (f.direction.Neither? || r.marker.Ok?) && r.read.Fail?
    ensures Migrate(f, store, r).dangling == Some(Tx(MarkerFor(f), []))
  {
  }

  /** For a file that keeps its transaction, the marker edit and the statements take effect
      together or not at all. */
  lemma TransactionalAllOrNothing(f: MigrationFile, store: Store, r: Responses)
    requires !RunsOutsideTx(f)
    ensures var run := Migrate(f, store, r);
      run.store == store || (|run.events| == 1 && run.store == Commit(store, Tx(MarkerFor(f), [f.content])))
  {
  }

  /** A file that opts out of the transaction keeps its statements' effects when the commit of
      its marker edit fails: the version table no longer matches the schema. */
  lemma RawStatementsOutliveFailedCommit(f: MigrationFile, store: Store, r: Responses)
    requires RunsOutsideTx(f)
    requires r.begin.Ok? && (f.direction.Neither? || r.marker.Ok?) && r.read.Ok?
    requires r.exec.Executed? && r.commit.Fail?
    ensures var run := Migrate(f, store, r);
      && run.store.applied == store.applied + [f.content]
      && run.store.versions == store.versions
      && run.events == [Started(f), Failed(Native(r.commit.err))]
  {
  }

  /** For any file, a commit that fails after every earlier step succeeded is sent after the
      file as the only error; the transaction is closed, so no rollback is attempted and its
      answer does not matter, and the version table keeps the versions it had. */
  lemma CommitFailureReported(f: MigrationFile, store: Store, r: Responses, rollback: Outcome)
    requires r.begin.Ok? && (f.direction.Neither? || r.marker.Ok?) && r.read.Ok?
    requires r.exec.Executed? && r.commit.Fail?
    ensures var run := Migrate(f, store, r);
      && run.events == [Started(f), Failed(Native(r.commit.err))]
      && run.store.versions == store.versions
      && run.dangling == None
      && run == Migrate(f, store, r.(rollback := rollback))
  {
  }

  /** Applying a version that is not applied yet and then reverting it, both successfully,
      gives back the version set it started from. */
  lemma UpThenDownRestoresVersions(up: MigrationFile, down: MigrationFile, store: Store, r1: Responses, r2: Responses)
    requires up.direction.Up? && down.direction.Down? && up.version == down.version
    requires up.version !in store.versions
    requires StepsSucceed(up, r1) && StepsSucceed(down, r2)
    ensures Migrate(down, Migrate(up, store, r1).store, r2).store.versions == store.versions
  {
  }

  /** A successful Up migration of a version above every applied one makes it the current
      version, the one `Version` returns. */
  lemma UpMakesCurrentVersion(f: MigrationFile, store: Store, r: Responses)
    requires f.direction.Up? && StepsSucceed(f, r)
    requires forall v :: v in store.versions ==> v < f.version
    ensures VersionStore.IsCurrent(Migrate(f, store, r).store.versions, f.version)
  {
  }
}

=== FILE: sql.dfy ===
/** The parts of database/sql the driver talks to, reduced to what a call can answer. */
module Sql {

  /** An error returned by database/sql, lib/pq or the file loader, kept opaque. */
  datatype DbError = DbError(message: string)

  /** The answer to a call that either succeeds or fails with an error. */
  datatype Outcome = Ok | Fail(err: DbError)
}

=== FILE: text.dfy ===
/** The pieces of Go's `strings` package that the directive parser uses, on `string` (a `seq<char>`). */
module Text {

  /** The text before the first newline of `s`, or all of `s` when it has none:
      `strings.SplitN(s, "\n", 2)[0]`. */
  function FirstLine(s: string): (line: string)
    ensures line <= s
    ensures '\n' !in line
    ensures |line| < |s| ==> s[|line|] == '\n'
  {
    if |s| == 0 || s[0] == '\n' then ""
    else
      var rest := FirstLine(s[1..]);
      assert [s[0]] + rest == s[..|rest| + 1];
      [s[0]] + rest
  }

  /** A line without newline is the first line of itself and of anything it is followed by
      after a newline. */
  lemma FirstLineOf(line: string, rest: string)
    requires '\n' !in line
    ensures FirstLine(line) == line
    ensures FirstLine(line + "\n" + rest) == line
  {
    var s := line + "\n" + rest;
    var l := FirstLine(s);
    assert s[|line|] == '\n';
    assert |l| == |line|;
    assert l == s[..|line|] == line;
    var m := FirstLine(line);
    assert |m| == |line|;
  }

  /** `strings.Join(parts, string(sep))`. */
  function Join(parts: seq<string>, sep: char): string
    requires |parts| >= 1
  {
    if |parts| == 1 then parts[0] else parts[0] + [sep] + Join(parts[1..], sep)
  }

  /** `strings.Split(s, string(sep))`: the pieces between occurrences of `sep`. An empty `s`
      gives one empty piece and every `sep` starts a new piece, so there are always exactly
      one more pieces than separators. */
  function Split(s: string, sep: char): (parts: seq<string>)
    ensures |parts| >= 1
    ensures forall i :: 0 <= i < |parts| ==> sep !in parts[i]
    ensures forall i, c :: 0 <= i < |parts| && c in parts[i] ==> c in s
    ensures Join(parts, sep) == s
    decreases |s|
  {
    if |s| == 0 then [""]
    else
      var rest := Split(s[1..], sep);
      if s[0] == sep then
        assert ([""] + rest)[1..] == rest;
        assert s == [s[0]] + s[1..];
        [""] + rest
      else
        var parts := [[s[0]] + rest[0]] + rest[1..];
        assert parts[1..] == rest[1..];
        assert forall i :: 1 <= i < |parts| ==> parts[i] == rest[i];
        assert s == [s[0]] + s[1..];
        parts
  }

  /** A character that is neither the separator nor in any part is not in the joined text. */
  lemma {:induction false} JoinAvoids(parts: seq<string>, sep: char, c: char)
    requires |parts| >= 1
    requires c != sep
    requires forall i :: 0 <= i < |parts| ==> c !in parts[i]
    ensures c !in Join(parts, sep)
  {
    if |parts| > 1 {
      JoinAvoids(parts[1..], sep, c);
    }
  }

  /** Splitting a text that has no separator gives the text back as the only piece. */
  lemma {:induction false} SplitWithoutSeparator(s: string, sep: char)
    requires sep !in s
    ensures Split(s, sep) == [s]
    decreases |s|
  {
    if |s| > 0 {
      SplitWithoutSeparator(s[1..], sep);
      assert s == [s[0]] + s[1..];
    }
  }

  /** A piece without separator followed by a separator becomes the first piece. */
  lemma {:induction false} SplitAfterPiece(a: string, sep: char, t: string)
    requires sep !in a
    ensures Split(a + [sep] + t, sep) == [a] + Split(t, sep)
    decreases |a|
  {
    var s := a + [sep] + t;
    if |a| == 0 {
      assert s[1..] == t;
    } else {
      assert s[1..] == a[1..] + [sep] + t;
      SplitAfterPiece(a[1..], sep, t);
      assert [a[0]] + a[1..] == a;
    }
  }

  /** Split is the inverse of Join on pieces that hold no separator. */
  lemma {:induction false} SplitJoin(parts: seq<string>, sep: char)
    requires |parts| >= 1
    requires forall i :: 0 <= i < |parts| ==> sep !in parts[i]
    ensures Split(Join(parts, sep), sep) == parts
  {
    if |parts| == 1 {
      SplitWithoutSeparator(parts[0], sep);
    } else {
      SplitJoin(parts[1..], sep);
      SplitAfterPiece(parts[0], sep, Join(parts[1..], sep));
      assert [parts[0]] + parts[1..] == parts;
    }
  }
}

=== FILE: versionstore.dfy ===
/** The version table read back as a whole (postgres.go:148-181). The table's rows are given in
    storage order; `version` is its primary key, so no version appears twice. */
module VersionStore {

  /** What `Version` returns for a set of applied versions: the greatest of them, or the zero
      value 0 when there is none (the query's `sql.ErrNoRows` is not an error). */
  ghost predicate IsCurrent(applied: set<int>, v: int) {
    if applied == {} then v == 0
    else v in applied && forall x :: x in applied ==> x <= v
  }

  /** The versions a table with these rows records as applied. */
  function AppliedSet(rows: seq<int>): set<int> {
    set x | x in rows
  }

  predicate Distinct(rows: seq<int>) {
    forall i, j :: 0 <= i < j < |rows| ==> rows[i] != rows[j]
  }

  predicate StrictlyDescending(vs: seq<int>) {
    forall i, j :: 0 <= i < j < |vs| ==> vs[i] > vs[j]
  }

  /** `Version`: `SELECT version ... ORDER BY version DESC LIMIT 1`, or 0 when the table is empty. */
  method Version(rows: seq<int>) returns (v: int)
    ensures IsCurrent(AppliedSet(rows), v)
  {
    v := 0;
    var i := 0;
    while i < |rows|
      invariant 0 <= i <= |rows|
      invariant i == 0 ==> v == 0
      invariant i > 0 ==> v in rows[..i]
      invariant forall k :: 0 <= k < i ==> rows[k] <= v
    {
      if i == 0 || rows[i] > v {
        v := rows[i];
      }
      assert rows[..i + 1] == rows[..i] + [rows[i]];
      i := i + 1;
    }
    assert rows[..i] == rows;
    if |rows| > 0 {
      assert rows[0] in AppliedSet(rows);
    }
  }

  /** Places `x` in a strictly descending list that does not hold it yet. */
  function InsertDescending(vs: seq<int>, x: int): (r: seq<int>)
    requires StrictlyDescending(vs) && x !in vs
    ensures StrictlyDescending(r)
    ensures forall y :: y in r <==> y in vs || y == x
    ensures |r| == |vs| + 1
  {
    if |vs| == 0 || x > vs[0] then [x] + vs
    else
      var tail := InsertDescending(vs[1..], x);
      assert forall y :: y in vs[1..] ==> y < vs[0];
      assert forall k :: 0 <= k < |tail| ==> tail[k] in tail;
      [vs[0]] + tail
  }

  /** `Versions`: `SELECT version ... ORDER BY version DESC`, every applied version once, greatest
      first. */
  method Versions(rows: seq<int>) returns (vs: seq<int>)
    requires Distinct(rows)
    ensures StrictlyDescending(vs)
    ensures forall y :: y in vs <==> y in rows
    ensures |vs| == |rows|
  {
    vs := [];
    var i := 0;
    while i < |rows|
      invariant 0 <= i <= |rows|
      invariant StrictlyDescending(vs)
      invariant forall y :: y in vs <==> y in rows[..i]
      invariant |vs| == i
    {
      assert rows[i] !in rows[..i];
      vs := InsertDescending(vs, rows[i]);
      assert rows[..i + 1] == rows[..i] + [rows[i]];
      i := i + 1;
    }
    assert rows[..i] == rows;
  }
}

=== FILE: wrappers.dfy ===
/** The optional value used where the Go code returns a value together with an `ok` or an error. */
module Wrappers {

  datatype Option<+T> = None | Some(value: T)
}
